=== FILE: README.md ===
# CashClock2 cost clock in Dafny

CashClock2 is a "meeting cost clock": while it runs, it adds up the elapsed
seconds and what they cost, given a number of persons and a cost per hour per
person. This project models the two parts of the app that hold logic:

- `ClockCalculator` (`clock_calculator.dfy`). This is the calculator record.
  It covers the accrual tick `updateTimeAndMoney`, the lifecycle operations
  `resetTimer`, `startTimer`, `continueTimer` and `stopTimer`, the observer
  registry and its notifications, and persistence of the two settings
  through keyed archiving and user defaults.
- `ClockViewController` (`clock_view_controller.dfy`). This is the main
  screen's three-state machine (Init, Started, Stopped). It covers the
  start/stop and reset clicks and the reset button's enabled flag. It also
  covers the screen acting as an observer: the time label shows hours,
  minutes and seconds and the money label shows the total. The setters for
  the two settings, `viewDidLoad` and `applicationWillTerminate` are here
  too. Every user action and timer firing goes through one event handler,
  `Handle`.
- `SwiftNumerics` (`swift_numerics.dfy`). This holds the bits of Swift
  integer behaviour the code depends on: the `Int32` and 64-bit `Int`
  ranges, `/` and `%` truncating toward zero, and `Int(Double)` truncating
  toward zero.

Conventions:

- Each calculator is an immutable value.
- The wall clock is an explicit `now: real` argument.
- The repeating `NSTimer` becomes the flag `timerScheduled`. Its firing is
  the event `TimerFired(now)`, which only does something while the flag is
  set.
- Observers are identities. A tick returns the list of `update(time, money)`
  calls it made.
- `NSUserDefaults` is a map from keys to stored values. A keyed archive is a
  map from coder keys to integers.
- `NSTimeInterval` and `Double` become exact `real`.
- Each Swift run-time trap becomes an `Err` result:
  - a failed `assert(interval >= 0)`;
  - an `Int` product `costPerHour * numberOfPersons` that overflows;
  - an `Int32(...)` conversion out of range in `encodeWithCoder`;
  - `removeAtIndex` with an index out of range.

Main results:

- A reset zeroes both counters and changes nothing else.
- A start zeroes the counters and anchors at `now`. A continue keeps the
  counters.
- With non-negative rates, ticks never decrease either counter.
- With unchanged rates, the cost always equals the elapsed time priced at
  the hourly rate. At 36 per hour for 100 persons, cost equals seconds.
- Two ticks accrue exactly what one tick to the later instant accrues.
- Removing an observer by the index `addObserver` returned undoes the
  registration.
- Save and load round-trip the two settings.
- The hours/minutes/seconds split is exact. For non-negative input it is the
  only normal split.
- A consistency invariant holds on every screen reachable by events: the
  timer is scheduled exactly in Started, reset is disabled in Started and
  reset is enabled in Stopped.

Facts about the code that the model keeps:

- The screen has three states: Init, Started and Stopped.
- The calculator has no snapshot string encoding or decoding and no merge
  of snapshots from a paired device. `setData`, which other files call, is
  not defined in the calculator. Neither is `calculator.state`, which the
  unit test reads. `description` is the default one inherited from
  `NSObject`, which the calculator does not override.
- Nothing requires `numberOfPersons >= 1`. The text field can set any
  integer.
- Only `costPerHour` and `numberOfPersons` are persisted.

`clickReset` has no guard of its own. From Started it sets state Init but
leaves the timer scheduled. That can only happen if the reset button is
tapped while disabled. The UI toolkit does not deliver such taps, and
`Handle` drops them. `ReplayKeepsConsistent` shows that, as a result, the
timer is never left running in Init.

## Model

| member | source | states |
|---|---|---|
| SwiftNumerics.Quot | CashClock2/ClockViewController.swift:187-188 | Swift `/` by a positive constant: for a ≥ 0, 0 ≤ a − d·q < d. For a < 0 the quotient is the one rounded toward zero. |
| SwiftNumerics.Rem | CashClock2/ClockViewController.swift:186-187 | Swift `%`: a = d·Quot(a, d) + r. The remainder lies in [0, d) for a ≥ 0 and in (−d, 0] for a < 0. |
| SwiftNumerics.TruncateToInt | CashClock2/ClockViewController.swift:181 | `Int(time)` drops the fraction toward zero. For x ≥ 0: n ≤ x < n + 1. For x < 0: n − 1 < x ≤ n. |
| SwiftNumerics.QuotMinutesHours | CashClock2/ClockViewController.swift:187-188 | Truncating division by 60 twice is the same as truncating division by 3600, for every integer. |
| ClockCalculator.AddObserver | CashClock2/ClockCalculator.swift:41-45 | Appends the observer at the end, leaves earlier entries as they were, and returns its index \|observers\| − 1. Nothing else changes. |
| ClockCalculator.RemoveObserver | CashClock2/ClockCalculator.swift:47-49 | Traps exactly when the index is out of range. Otherwise it deletes exactly element i: earlier entries stay put, later ones move down by one, and nothing else changes. |
| ClockCalculator.AddThenRemoveObserver | CashClock2/ClockCalculator.swift:41-49 | Removing by the index `addObserver` returned gives back the calculator from before the add. |
| ClockCalculator.Notify | CashClock2/ClockCalculator.swift:90-92 | Makes one call per registered observer, in list order, each with the same time and money. |
| ClockCalculator.New | CashClock2/ClockCalculator.swift:32-39 | A new calculator has 1 person at 40 per hour, both counters 0 (so cost matches time), no timer and no observers. |
| ClockCalculator.ResetTimer | CashClock2/ClockCalculator.swift:71-75 | Both counters become 0. The settings, anchor, timer and observers are unchanged, so cost equals priced time again. |
| ClockCalculator.ContinueTimer | CashClock2/ClockCalculator.swift:63-69 | Anchors startTime = currentTime = now and schedules the timer. It keeps both counters, the settings and the observers, and keeps cost equal to priced time. |
| ClockCalculator.StartTimer | CashClock2/ClockCalculator.swift:51-54 | Reset then continue: counters 0, startTime = currentTime = now, timer scheduled, settings and observers kept. |
| ClockCalculator.UpdateTimeAndMoney | CashClock2/ClockCalculator.swift:82-93 | Succeeds iff now ≥ startTime and the hourly rate fits in `Int`, with the matching error otherwise. Adds exactly now − startTime to elapsedTime and its cost to totalCost, sets startTime = currentTime = now, and tells every observer the new totals in order. |
| ClockCalculator.StopTimer | CashClock2/ClockCalculator.swift:56-61 | Unschedules the timer and makes one final tick, with the same success condition and errors as a tick. The interval and its cost are added, startTime = currentTime = now, settings and observers are kept, and every observer is told the final totals in order. |
| ClockCalculator.TickMonotone | CashClock2/ClockCalculator.swift:84-88 | With costPerHour ≥ 0 and numberOfPersons ≥ 0, a tick never decreases elapsedTime or totalCost. |
| ClockCalculator.RunMonotone | CashClock2/ClockCalculator.swift:82-93 | With non-negative rates, no sequence of ticks decreases either counter. |
| ClockCalculator.TickKeepsCostMatchesTime | CashClock2/ClockCalculator.swift:84-88 | If totalCost = elapsedTime · costPerHour · numberOfPersons / 3600 before a tick, the same holds after it. |
| ClockCalculator.RunKeepsCostMatchesTime | CashClock2/ClockCalculator.swift:82-93 | Any sequence of ticks keeps that proportion and leaves the rates unchanged. |
| ClockCalculator.StartRunStopCost | CashClock2/ClockCalculator.swift:51-93 | After start, any ticks and stop, the total cost is exactly the elapsed time priced at the hourly rate. |
| ClockCalculator.ThirtySixTimesHundredCostsOnePerSecond | CashClock2Tests/ClockCalculatorTests.swift:79-88 | At 36 per hour for 100 persons, starting at t0 and stopping at t1 ≥ t0 succeeds, and both elapsedTime and totalCost equal t1 − t0. |
| ClockCalculator.TicksAreAdditive | CashClock2/ClockCalculator.swift:84-89 | Ticking at t1 and then at t2 (startTime ≤ t1 ≤ t2) gives the same calculator as one tick at t2. |
| ClockCalculator.EncodeWithCoder | CashClock2/ClockCalculator.swift:130-133 | Succeeds iff both settings fit in `Int32`. The archive holds exactly the two keys, with the two settings as values. |
| ClockCalculator.InitWithCoder | CashClock2/ClockCalculator.swift:121-125 | Each setting is the archived integer under its key, or 0 when the key was never written. Everything else is as in a new calculator. |
| ClockCalculator.EncodeDecodeRoundTrip | CashClock2/ClockCalculator.swift:121-133 | `init(coder:)` on what `encodeWithCoder` wrote gives a fresh calculator with the same two settings. |
| ClockCalculator.Save | CashClock2/ClockCalculator.swift:139-143 | Succeeds iff both settings fit in `Int32`. It stores a calculator archive under "CashClock" and leaves every other key as it was. |
| ClockCalculator.Load | CashClock2/ClockCalculator.swift:149-162 | Crashes exactly when the "CashClock" entry is data that is not a keyed archive. Otherwise it changes at most costPerHour and numberOfPersons, never the counters, anchor, timer or observers. A calculator archive supplies the settings `init(coder:)` decodes. No entry, an archive of another class, or a non-data entry changes nothing. |
| ClockCalculator.SaveLoadRoundTrip | CashClock2/ClockCalculator.swift:121-162 | Loading what `save` stored into any calculator succeeds and sets exactly the saved costPerHour and numberOfPersons. |
| ClockCalculator.SaveResetLoad | CashClock2Tests/ClockCalculatorTests.swift:115-123 | Save, reset, load: the settings are the saved ones, and the calculator is the reset one. |
| ClockViewController.UpdateElapsedTime | CashClock2/ClockViewController.swift:185-190 | hours·3600 + minutes·60 + seconds = time for every Int. For time ≥ 0, minutes and seconds lie in [0, 60) and hours ≥ 0. For time < 0 all parts are ≤ 0, and minutes and seconds are above −60. |
| ClockViewController.NormalDisplayUnique | CashClock2/ClockViewController.swift:185-189 | For time ≥ 0, a display is normal and adds up to time iff it is the one `updateElapsedTime` computes. |
| ClockViewController.WholeSecondsShown | CashClock2/ClockViewController.swift:180-189 | For a time ≥ 0 the display is normal and stands for the whole seconds of the time: s ≤ time < s + 1. |
| ClockViewController.Update | CashClock2/ClockViewController.swift:180-183 | The observer callback: the time label shows the whole seconds of a non-negative time, normalised, and the money label shows exactly the money. |
| ClockViewController.Deliver | CashClock2/ClockViewController.swift:180-183 | The labels after a tick's calls. If no call is addressed to this screen, the labels are unchanged. |
| ClockViewController.DeliverSameTotals | CashClock2/ClockCalculator.swift:90-92 | When all calls of a tick carry the same totals and at least one reaches this screen, the labels show exactly those totals. |
| ClockViewController.UpdateNumberOfPersons | CashClock2/ClockViewController.swift:101-106 | Sets calculator.numberOfPersons = n. It changes nothing else in the calculator and nothing else on the screen. |
| ClockViewController.UpdateCostPerHour | CashClock2/ClockViewController.swift:108-112 | Sets calculator.costPerHour = n. It changes nothing else in the calculator and nothing else on the screen. |
| ClockViewController.ClickNumberOfPersonStepper | CashClock2/ClockViewController.swift:95-99 | The stepper value, truncated toward zero, becomes numberOfPersons. For value ≥ 0: 0 ≤ n ≤ value < n + 1. For value < 0: n ≤ 0 and n − 1 < value ≤ n. Nothing else changes. |
| ClockViewController.TouchesBegan | CashClock2/ClockViewController.swift:205-223 | Ending both edits sets numberOfPersons and costPerHour to the two fields' values and changes nothing else. |
| ClockViewController.ShowStopButton | CashClock2/ClockViewController.swift:160-165 | Entering Started disables reset. The calculator and labels are kept. |
| ClockViewController.ClickStartStop | CashClock2/ClockViewController.swift:120-143 | The transition table. Init → Started: counters zeroed, startTime = currentTime = now, timer scheduled, reset disabled, labels kept. Started → Stopped: fails exactly when the final tick traps. Otherwise the calculator is the stopped one, the timer is unscheduled, reset is enabled, and the labels are the final tick's calls delivered to this screen. Stopped → Started: counters kept, startTime = currentTime = now, reset disabled, labels kept. Settings and observers are always kept. |
| ClockViewController.ResetTimer | CashClock2/ClockViewController.swift:151-154 | Counters 0, the rest of the calculator unchanged, labels at zero, and state and reset button untouched. |
| ClockViewController.ClickReset | CashClock2/ClockViewController.swift:145-149 | From any state: state Init, counters 0, labels zero, the rest of the calculator and the reset button unchanged. |
| ClockViewController.ZeroLabelsAreUpdateOfZero | CashClock2/ClockViewController.swift:151-154 | The zero labels a reset shows are exactly what `update(0.0, 0.0)` shows: 00:00:00 and 0. |
| ClockViewController.ClickResetIdempotent | CashClock2/ClockViewController.swift:145-154 | Resetting a second time changes nothing. |
| ClockViewController.StopThenContinueKeepsCounters | CashClock2/ClockViewController.swift:127-138 | Stop then continue succeeds. It runs on with exactly the counters the stop flushed: the old ones plus the final interval and its cost. |
| ClockViewController.StopShowsFinalTotals | CashClock2/ClockViewController.swift:127-133 | After a stop, a registered screen's labels show exactly what `update` shows for the final elapsed time and total cost. |
| ClockViewController.ViewDidLoad | CashClock2/ClockViewController.swift:45-55 | Fails exactly when loading crashes. Otherwise it takes over the loaded settings, keeps counters, anchor (startTime, currentTime) and timer, and registers the screen as the last observer. Earlier observers are kept, and the state, button and labels are unchanged. |
| ClockViewController.Launch | CashClock2/ClockViewController.swift:34-55 | A launch fails exactly when the stored entry is corrupt data. Otherwise the screen is in Init with the timer unscheduled, both counters 0, zero labels, the storyboard's reset setting and the screen as the only observer. The settings are the ones `load` gives a new calculator: the decoded ones for a calculator archive, otherwise the defaults. With no stored entry (a first launch) it succeeds with the defaults of 1 person at 40 per hour. |
| ClockViewController.ApplicationWillTerminate | CashClock2/ClockViewController.swift:70-73 | Saving at termination succeeds iff both settings fit in `Int32`. It then stores an entry under "CashClock" and keeps every other key as it was. |
| ClockViewController.RelaunchRestoresSettings | CashClock2/ClockViewController.swift:45-73 | After a successful save at termination, the next launch succeeds and starts with the saved settings. |
| ClockViewController.Handle | CashClock2/ClockViewController.swift:95-149 | A start/stop tap is `clickStartStop`. A reset tap is dropped while reset is disabled and is `clickReset` while enabled. A timer firing is ignored while unscheduled. Otherwise it fails exactly when the tick traps, and on success the calculator is the ticked one and the labels are the tick's calls delivered to this screen, with state and button kept. The stepper and a background tap apply their setters and keep the state. |
| ClockViewController.LaunchConsistent | CashClock2/ClockViewController.swift:34-55 | Every successfully launched screen is consistent: the timer is scheduled iff Started, reset is off in Started and on in Stopped. |
| ClockViewController.HandleKeepsConsistent | CashClock2/ClockViewController.swift:120-165 | Every event keeps the screen consistent. |
| ClockViewController.ReplayKeepsConsistent | CashClock2/ClockViewController.swift:120-165 | Every sequence of events keeps the screen consistent. |
| ClockViewController.TimerFiredShowsTotals | CashClock2/ClockCalculator.swift:82-93 | After a timer tick on a registered screen, the labels show exactly what `update` shows for the calculator's new elapsed time and total cost. |

## Left out

- Wall clock, `NSTimer` scheduling and `invalidate`: the current time is a parameter and the timer is a flag. Timer firings are events with explicit instants. The 0.1 s repeat interval is not modelled.
- ClockCalculator.ContinueTimer: calling `continueTimer` while a timer is already scheduled creates a second `NSTimer` and keeps the first. The flag cannot count timers. Through the screen this only happens after a reset tap on a disabled button, which `Handle` drops.
- Swift `assert` is compiled out in optimised builds. The model always treats a negative interval as a trap, as in debug builds.
- IEEE double rounding: times and money are exact reals. The unit test's exact equality of money and time holds in the model. With doubles it depends on rounding.
- ClockViewController.Update: `Int(time)` also traps for a time at or beyond 2^63 seconds. The model has no such bound.
- `getTime` and `getMoney` only return `elapsedTime` and `totalCost`. The model reads those fields directly.
- The `State` raw values ("initialized", "started", "stopped") and `description` are only used for logging.
- Logging (`println`), button titles and colours, the `%.2d:%.2d:%.2d` and `%4.2f €` label formatting, iAd banners, keyboard handling and view animation are left out.
- Text-field parsing with `toInt()!` (which traps on non-numeric text) is left out. The fields reach the model as the integers they hold.
- The storyboard's initial reset-button setting is a parameter of `Launch`. The labels' initial texts are taken as zero.
- `NSKeyedArchiver`/`NSKeyedUnarchiver` byte formats: an archive is a map from coder keys to integers. A stored value is either a calculator archive, an archive of another class, data that is not a keyed archive (unarchiving it raises an exception and crashes), or a non-data object.
- Swift `Int` is taken to be 64 bits wide, as on 64-bit devices. On a 32-bit device the product `costPerHour * numberOfPersons` traps above 2^31 − 1, and the `Int32(...)` conversions in `encodeWithCoder` never trap. `RateOverflow` and `Int32Overflow` model the 64-bit platform only.
- CashClock2/ClockObserver.swift declares a second, conflicting observer protocol and is not part of this model. Observers are identities.
- The phone/watch connectivity handler, the watch extension's calculator copy and its interface controllers are not part of this model. They are I/O glue or duplicates of the calculator.

=== FILE: clock_calculator.dfy ===
/**
 The cost clock of CashClock2: a record that accumulates elapsed seconds and
 the money those seconds cost, given a number of persons and a cost per hour
 and person.

 The calculator is an immutable value here. The wall clock that the app reads
 with `NSDate.timeIntervalSinceReferenceDate()` is the explicit parameter
 `now`, the repeating `NSTimer` is the flag `timerScheduled` (its firing is an
 event of the view controller), observers are identities that receive
 notifications, and `NSUserDefaults` with keyed archiving is a map of maps.
 Every Swift trap on the way (a failed `assert`, an overflowing `Int`
 product, an `Int32` conversion out of range, an index out of range) is an
 `Err` result.
 */
module ClockCalculator {
  import opened SwiftNumerics

  /** A registered observer; only its identity matters to the calculator. */
  datatype Observer = Observer(id: nat)

  /** One call `observer.update(time, money)` made at the end of a tick. */
  datatype Notification = Notification(observer: Observer, time: real, money: real)

  datatype Calculator = Calculator(
    numberOfPersons: int,
    costPerHour: int,
    totalCost: real,
    startTime: real,
    currentTime: real,
    elapsedTime: real,
    timerScheduled: bool,
    observers: seq<Observer>)

  /** The ways an operation of the calculator traps. */
  datatype ClockError =
    | InvalidStartTime(startTime: real, now: real)
    | RateOverflow(rate: int)
    | ObserverIndexOutOfRange(index: int, count: int)
    | Int32Overflow(value: int)
    | NotAKeyedArchive

  datatype Result<T> = Ok(value: T) | Err(error: ClockError)

  /** What a tick leaves behind: the new calculator and the observer calls it made, in order. */
  datatype Ticked = Ticked(calculator: Calculator, notifications: seq<Notification>)

  const DEFAULT_NUMBER_OF_PERSONS: int := 1
  /** About the average labour cost per hour in the German IT industry. */
  const DEFAULT_COST_PER_HOUR: int := 40
  const SECONDS_PER_HOUR: real := 3600.0

  /** A freshly allocated `ClockCalculator()`: default settings, nothing accrued, no timer, no observers. */
  function New(): (c: Calculator)
    ensures c.numberOfPersons == 1 && c.costPerHour == 40
    ensures c.elapsedTime == 0.0 && c.totalCost == 0.0 && CostMatchesTime(c)
    ensures !c.timerScheduled && c.observers == []
  {
    Calculator(DEFAULT_NUMBER_OF_PERSONS, DEFAULT_COST_PER_HOUR, 0.0, 0.0, 0.0, 0.0, false, [])
  }

  /** The `Int` product `costPerHour * numberOfPersons`: the cost of one hour for everybody. */
  function HourlyRate(c: Calculator): int {
    c.costPerHour * c.numberOfPersons
  }

  /** The cost of `seconds` seconds at the hourly rate of `c`. */
  function CostOf(seconds: real, c: Calculator): real {
    seconds * HourlyRate(c) as real / SECONDS_PER_HOUR
  }

  /** True when the calculator's two counters agree with its current rates. */
  predicate CostMatchesTime(c: Calculator) {
    c.totalCost == CostOf(c.elapsedTime, c)
  }

  /** `d` differs from `c` at most in its two counters. */
  predicate SameExceptCounters(c: Calculator, d: Calculator) {
    && d.numberOfPersons == c.numberOfPersons && d.costPerHour == c.costPerHour
    && d.startTime == c.startTime && d.currentTime == c.currentTime
    && d.timerScheduled == c.timerScheduled && d.observers == c.observers
  }

  /** `d` differs from `c` at most in its observers. */
  predicate SameExceptObservers(c: Calculator, d: Calculator) {
    && d.numberOfPersons == c.numberOfPersons && d.costPerHour == c.costPerHour
    && d.totalCost == c.totalCost && d.elapsedTime == c.elapsedTime
    && d.startTime == c.startTime && d.currentTime == c.currentTime
    && d.timerScheduled == c.timerScheduled
  }

  /** `d` differs from `c` at most in its two settings, `numberOfPersons` and `costPerHour`. */
  predicate SameExceptSettings(c: Calculator, d: Calculator) {
    && d.totalCost == c.totalCost && d.elapsedTime == c.elapsedTime
    && d.startTime == c.startTime && d.currentTime == c.currentTime
    && d.timerScheduled == c.timerScheduled && d.observers == c.observers
  }

  /////   Observers   //////////////////////////////////////////////////////////

  /** `addObserver`: appends the observer and returns the index it now has. */
  function AddObserver(c: Calculator, o: Observer): (r: (Calculator, int))
    ensures |r.0.observers| == |c.observers| + 1
    ensures r.1 == |r.0.observers| - 1 && r.0.observers[r.1] == o
    ensures r.0.observers[..r.1] == c.observers
    ensures SameExceptObservers(c, r.0)
  {
    (c.(observers := c.observers + [o]), |c.observers|)
  }

  /** `removeObserver`: deletes exactly the observer at index `i`; Swift traps on a bad index. */
  function RemoveObserver(c: Calculator, i: int): (r: Result<Calculator>)
    ensures r.Ok? <==> 0 <= i < |c.observers|
    ensures r.Err? ==> r.error == ObserverIndexOutOfRange(i, |c.observers|)
    ensures r.Ok? ==>
      && |r.value.observers| == |c.observers| - 1
      && (forall j :: 0 <= j < i ==> r.value.observers[j] == c.observers[j])
      && (forall j :: i <= j < |r.value.observers| ==> r.value.observers[j] == c.observers[j + 1])
      && SameExceptObservers(c, r.value)
  {
    if 0 <= i < |c.observers| then
      Ok(c.(observers := c.observers[..i] + c.observers[i + 1..]))
    else
      Err(ObserverIndexOutOfRange(i, |c.observers|))
  }

  /** Removing an observer by the index `addObserver` returned undoes the registration. */
  lemma AddThenRemoveObserver(c: Calculator, o: Observer)
    ensures RemoveObserver(AddObserver(c, o).0, AddObserver(c, o).1) == Ok(c)
  {
    var (d, i) := AddObserver(c, o);
    assert d.observers[..i] + d.observers[i + 1..] == c.observers;
  }

  /** The calls `obsrv.update(time, money)` made by the loop over `observers`, in list order. */
  function Notify(observers: seq<Observer>, time: real, money: real): (ns: seq<Notification>)
    ensures |ns| == |observers|
    ensures forall i :: 0 <= i < |ns| ==> ns[i] == Notification(observers[i], time, money)
  {
    if observers == [] then []
    else [Notification(observers[0], time, money)] + Notify(observers[1..], time, money)
  }

  /////   Timer   //////////////////////////////////////////////////////////////

  /** `resetTimer`: zeroes both counters and touches nothing else. */
  function ResetTimer(c: Calculator): (r: Calculator)
    ensures r.elapsedTime == 0.0 && r.totalCost == 0.0
    ensures SameExceptCounters(c, r)
    ensures CostMatchesTime(r)
  {
    c.(elapsedTime := 0.0, totalCost := 0.0)
  }

  /** `continueTimer`: anchors the next interval at `now` and schedules the timer, keeping the counters. */
  function ContinueTimer(c: Calculator, now: real): (r: Calculator)
    ensures r.startTime == now && r.currentTime == now && r.timerScheduled
    ensures r.elapsedTime == c.elapsedTime && r.totalCost == c.totalCost
    ensures r.numberOfPersons == c.numberOfPersons && r.costPerHour == c.costPerHour
    ensures r.observers == c.observers
    ensures CostMatchesTime(c) ==> CostMatchesTime(r)
  {
    c.(startTime := now, currentTime := now, timerScheduled := true)
  }

  /** `startTimer`: a reset followed by a continue. */
  function StartTimer(c: Calculator, now: real): (r: Calculator)
    ensures r.elapsedTime == 0.0 && r.totalCost == 0.0
    ensures r.startTime == now && r.currentTime == now && r.timerScheduled
    ensures r.numberOfPersons == c.numberOfPersons && r.costPerHour == c.costPerHour
    ensures r.observers == c.observers
    ensures CostMatchesTime(r)
  {
    ContinueTimer(ResetTimer(c), now)
  }

  /**
   `updateTimeAndMoney`, the accrual step: the interval since `startTime` is
   added to `elapsedTime` and its cost to `totalCost`, the interval's end
   becomes the next `startTime`, and every observer is told the new totals.
   A negative interval fails the assertion; an hourly rate that does not fit
   in `Int` traps in the multiplication.
   */
  function UpdateTimeAndMoney(c: Calculator, now: real): (r: Result<Ticked>)
    ensures r.Ok? <==> c.startTime <= now && IsInt64(HourlyRate(c))
    ensures now < c.startTime ==> r == Err(InvalidStartTime(c.startTime, now))
    ensures r.Err? && c.startTime <= now ==> r == Err(RateOverflow(HourlyRate(c)))
    ensures r.Ok? ==>
      var d := r.value.calculator;
      && d.elapsedTime == c.elapsedTime + (now - c.startTime)
      && d.totalCost == c.totalCost + CostOf(now - c.startTime, c)
      && d.startTime == now && d.currentTime == now
      && d.numberOfPersons == c.numberOfPersons && d.costPerHour == c.costPerHour
      && d.timerScheduled == c.timerScheduled && d.observers == c.observers
    ensures r.Ok? ==>
      var ns := r.value.notifications;
      && |ns| == |c.observers|
      && forall i :: 0 <= i < |ns| ==>
           ns[i] == Notification(c.observers[i], r.value.calculator.elapsedTime, r.value.calculator.totalCost)
  {
    var interval := now - c.startTime;
    if interval < 0.0 then
      Err(InvalidStartTime(c.startTime, now))
    else if !IsInt64(HourlyRate(c)) then
      Err(RateOverflow(HourlyRate(c)))
    else
      var totalCost := c.totalCost + CostOf(interval, c);
      var elapsedTime := c.elapsedTime + interval;
      var d := c.(totalCost := totalCost, elapsedTime := elapsedTime, startTime := now, currentTime := now);
      Ok(Ticked(d, Notify(c.observers, elapsedTime, totalCost)))
  }

  /** `stopTimer`: unschedules the timer and flushes one final tick. */
  function StopTimer(c: Calculator, now: real): (r: Result<Ticked>)
    ensures r.Ok? <==> c.startTime <= now && IsInt64(HourlyRate(c))
    ensures now < c.startTime ==> r == Err(InvalidStartTime(c.startTime, now))
    ensures r.Err? && c.startTime <= now ==> r == Err(RateOverflow(HourlyRate(c)))
    ensures r.Ok? ==>
      var d := r.value.calculator;
      && !d.timerScheduled
      && d.elapsedTime == c.elapsedTime + (now - c.startTime)
      && d.totalCost == c.totalCost + CostOf(now - c.startTime, c)
      && d.startTime == now && d.currentTime == now
      && d.numberOfPersons == c.numberOfPersons && d.costPerHour == c.costPerHour
      && d.observers == c.observers
    ensures r.Ok? ==>
      var ns := r.value.notifications;
      && |ns| == |c.observers|
      && forall i :: 0 <= i < |ns| ==>
           ns[i] == Notification(c.observers[i], r.value.calculator.elapsedTime, r.value.calculator.totalCost)
  {
    UpdateTimeAndMoney(c.(timerScheduled := false), now)
  }

  /** The calculator after the ticks at the instants `times`, in order; the first trap ends the run. */
  function Run(c: Calculator, times: seq<real>): Result<Calculator>
    decreases |times|
  {
    if times == [] then Ok(c)
    else
      match UpdateTimeAndMoney(c, times[0])
      case Err(e) => Err(e)
      case Ok(t) => Run(t.calculator, times[1..])
  }

  /////   Properties of the accrual   //////////////////////////////////////////

  /** With non-negative rates one tick never decreases either counter. */
  lemma TickMonotone(c: Calculator, now: real)
    requires c.costPerHour >= 0 && c.numberOfPersons >= 0
    requires UpdateTimeAndMoney(c, now).Ok?
    ensures UpdateTimeAndMoney(c, now).value.calculator.elapsedTime >= c.elapsedTime
    ensures UpdateTimeAndMoney(c, now).value.calculator.totalCost >= c.totalCost
  {
    var interval := now - c.startTime;
    assert HourlyRate(c) >= 0;
    assert interval * HourlyRate(c) as real >= 0.0;
  }

  /** With non-negative rates no sequence of ticks decreases either counter. */
  lemma {:induction false} RunMonotone(c: Calculator, times: seq<real>)
    requires c.costPerHour >= 0 && c.numberOfPersons >= 0
    requires Run(c, times).Ok?
    ensures Run(c, times).value.elapsedTime >= c.elapsedTime
    ensures Run(c, times).value.totalCost >= c.totalCost
    decreases |times|
  {
    if times != [] {
      var d := UpdateTimeAndMoney(c, times[0]).value.calculator;
      TickMonotone(c, times[0]);
      RunMonotone(d, times[1..]);
    }
  }

  /** A tick keeps the counters in proportion: the cost stays the elapsed time at the current rates. */
  lemma TickKeepsCostMatchesTime(c: Calculator, now: real)
    requires CostMatchesTime(c)
    requires UpdateTimeAndMoney(c, now).Ok?
    ensures CostMatchesTime(UpdateTimeAndMoney(c, now).value.calculator)
  {
    var d := UpdateTimeAndMoney(c, now).value.calculator;
    var k := HourlyRate(c) as real;
    var interval := now - c.startTime;
    assert d.elapsedTime * k == c.elapsedTime * k + interval * k;
  }

  /** Ticks with unchanged rates keep the proportion between cost and elapsed time. */
  lemma {:induction false} RunKeepsCostMatchesTime(c: Calculator, times: seq<real>)
    requires CostMatchesTime(c)
    requires Run(c, times).Ok?
    ensures CostMatchesTime(Run(c, times).value)
    ensures Run(c, times).value.numberOfPersons == c.numberOfPersons
    ensures Run(c, times).value.costPerHour == c.costPerHour
    decreases |times|
  {
    if times != [] {
      var d := UpdateTimeAndMoney(c, times[0]).value.calculator;
      TickKeepsCostMatchesTime(c, times[0]);
      RunKeepsCostMatchesTime(d, times[1..]);
    }
  }

  /**
   Starting the clock at `t0`, ticking at `times` and stopping at `t1`: the
   total cost is exactly the elapsed time priced at the hourly rate.
   */
  lemma StartRunStopCost(c: Calculator, t0: real, times: seq<real>, t1: real)
    requires Run(StartTimer(c, t0), times).Ok?
    requires StopTimer(Run(StartTimer(c, t0), times).value, t1).Ok?
    ensures CostMatchesTime(StopTimer(Run(StartTimer(c, t0), times).value, t1).value.calculator)
  {
    var d := Run(StartTimer(c, t0), times).value;
    RunKeepsCostMatchesTime(StartTimer(c, t0), times);
    TickKeepsCostMatchesTime(d.(timerScheduled := false), t1);
  }

  /**
   At 36 per hour for 100 persons one unit of money is spent per second: start
   at `t0` and stop at `t1` cost exactly the `t1 - t0` seconds that elapsed.
   */
  lemma ThirtySixTimesHundredCostsOnePerSecond(c: Calculator, t0: real, t1: real)
    requires c.costPerHour == 36 && c.numberOfPersons == 100
    requires t0 <= t1
    ensures StopTimer(StartTimer(c, t0), t1).Ok?
    ensures StopTimer(StartTimer(c, t0), t1).value.calculator.elapsedTime == t1 - t0
    ensures StopTimer(StartTimer(c, t0), t1).value.calculator.totalCost == t1 - t0
  {
  }

  /** Ticking at `t1` and then at `t2` accrues exactly what one tick at `t2` does. */
  lemma TicksAreAdditive(c: Calculator, t1: real, t2: real)
    requires c.startTime <= t1 <= t2 && IsInt64(HourlyRate(c))
    ensures UpdateTimeAndMoney(c, t1).Ok?
    ensures UpdateTimeAndMoney(UpdateTimeAndMoney(c, t1).value.calculator, t2).Ok?
    ensures UpdateTimeAndMoney(UpdateTimeAndMoney(c, t1).value.calculator, t2).value.calculator
         == UpdateTimeAndMoney(c, t2).value.calculator
  {
    var k := HourlyRate(c) as real;
    assert (t1 - c.startTime) * k + (t2 - t1) * k == (t2 - c.startTime) * k;
  }

  /////   Persistence   ////////////////////////////////////////////////////////

  /** A keyed archive of one object: the integers written under each key. */
  type Archive = map<string, int>

  /** What `NSUserDefaults` may hold under a key. */
  datatype Stored =
    | CalculatorArchive(fields: Archive)  // data that unarchives to a ClockCalculator
    | OtherArchive                        // data whose root object is not a ClockCalculator
    | CorruptData                         // NSData that is not a keyed archive at all
    | NotData                             // an object that is not NSData at all

  type Defaults = map<string, Stored>

  const DEFAULTS_KEY: string := "CashClock"
  const COST_PER_HOUR_KEY: string := "costPerHour"
  const NUMBER_OF_PERSONS_KEY: string := "numberOfPersons"

  /** `encodeWithCoder`: the two settings as `Int32` values; a value outside `Int32` traps. */
  function EncodeWithCoder(c: Calculator): (r: Result<Archive>)
    ensures r.Ok? <==> IsInt32(c.costPerHour) && IsInt32(c.numberOfPersons)
    ensures r.Ok? ==> r.value.Keys == {COST_PER_HOUR_KEY, NUMBER_OF_PERSONS_KEY}
    ensures r.Ok? ==> r.value[COST_PER_HOUR_KEY] == c.costPerHour
    ensures r.Ok? ==> r.value[NUMBER_OF_PERSONS_KEY] == c.numberOfPersons
  {
    if !IsInt32(c.costPerHour) then Err(Int32Overflow(c.costPerHour))
    else if !IsInt32(c.numberOfPersons) then Err(Int32Overflow(c.numberOfPersons))
    else Ok(map[COST_PER_HOUR_KEY := c.costPerHour, NUMBER_OF_PERSONS_KEY := c.numberOfPersons])
  }

  /** `decodeIntegerForKey`: the stored integer, or 0 when the key was never written. */
  function DecodeInteger(a: Archive, key: string): int {
    if key in a then a[key] else 0
  }

  /**
   `init(coder:)`: a fresh calculator carrying the two archived settings; a
   setting that was never written reads as 0.
   */
  function InitWithCoder(a: Archive): (c: Calculator)
    ensures c.costPerHour == (if COST_PER_HOUR_KEY in a then a[COST_PER_HOUR_KEY] else 0)
    ensures c.numberOfPersons == (if NUMBER_OF_PERSONS_KEY in a then a[NUMBER_OF_PERSONS_KEY] else 0)
    ensures SameExceptSettings(New(), c)
  {
    New().(costPerHour := DecodeInteger(a, COST_PER_HOUR_KEY),
           numberOfPersons := DecodeInteger(a, NUMBER_OF_PERSONS_KEY))
  }

  /** Decoding what `encodeWithCoder` wrote gives a fresh calculator with the same two settings. */
  lemma EncodeDecodeRoundTrip(c: Calculator)
    requires EncodeWithCoder(c).Ok?
    ensures var d := InitWithCoder(EncodeWithCoder(c).value);
      && d.costPerHour == c.costPerHour && d.numberOfPersons == c.numberOfPersons
      && d.elapsedTime == 0.0 && d.totalCost == 0.0 && !d.timerScheduled && d.observers == []
  {
  }

  /** `save`: archives the calculator under "CashClock", leaving every other entry alone. */
  function Save(c: Calculator, defaults: Defaults): (r: Result<Defaults>)
    ensures r.Ok? <==> IsInt32(c.costPerHour) && IsInt32(c.numberOfPersons)
    ensures r.Ok? ==> DEFAULTS_KEY in r.value && r.value[DEFAULTS_KEY].CalculatorArchive?
    ensures r.Ok? ==> forall k :: k in defaults && k != DEFAULTS_KEY ==> k in r.value && r.value[k] == defaults[k]
    ensures r.Ok? ==> r.value.Keys == defaults.Keys + {DEFAULTS_KEY}
  {
    match EncodeWithCoder(c)
    case Err(e) => Err(e)
    case Ok(a) => Ok(defaults[DEFAULTS_KEY := CalculatorArchive(a)])
  }

  /**
   `load`: takes over `costPerHour` and `numberOfPersons` from the archived
   calculator, if there is one; the counters, the timer and the observers are
   never touched. Unarchiving data that is not a keyed archive raises an
   exception Swift cannot catch.
   */
  function Load(c: Calculator, defaults: Defaults): (r: Result<Calculator>)
    ensures r.Err? <==> DEFAULTS_KEY in defaults && defaults[DEFAULTS_KEY].CorruptData?
    ensures r.Err? ==> r.error == NotAKeyedArchive
    ensures r.Ok? ==> SameExceptSettings(c, r.value)
    ensures DEFAULTS_KEY !in defaults || defaults[DEFAULTS_KEY].OtherArchive? || defaults[DEFAULTS_KEY].NotData?
      ==> r == Ok(c)
    ensures DEFAULTS_KEY in defaults && defaults[DEFAULTS_KEY].CalculatorArchive? ==>
      var loaded := InitWithCoder(defaults[DEFAULTS_KEY].fields);
      r == Ok(c.(costPerHour := loaded.costPerHour, numberOfPersons := loaded.numberOfPersons))
  {
    if DEFAULTS_KEY in defaults then
      match defaults[DEFAULTS_KEY]
      case CalculatorArchive(a) =>
        var loaded := InitWithCoder(a);
        Ok(c.(costPerHour := loaded.costPerHour, numberOfPersons := loaded.numberOfPersons))
      case CorruptData => Err(NotAKeyedArchive)
      case OtherArchive => Ok(c)
      case NotData => Ok(c)
    else Ok(c)
  }

  /** What `save` stores, `load` restores: exactly the two settings, into any calculator. */
  lemma SaveLoadRoundTrip(c: Calculator, other: Calculator, defaults: Defaults)
    requires Save(c, defaults).Ok?
    ensures Load(other, Save(c, defaults).value)
         == Ok(other.(costPerHour := c.costPerHour, numberOfPersons := c.numberOfPersons))
  {
  }

  /** Saving, resetting and loading again leaves the settings as they were saved. */
  lemma SaveResetLoad(c: Calculator, defaults: Defaults)
    requires Save(c, defaults).Ok?
    ensures Load(ResetTimer(c), Save(c, defaults).value) == Ok(ResetTimer(c))
  {
    SaveLoadRoundTrip(c, ResetTimer(c), defaults);
  }
}

=== FILE: clock_view_controller.dfy ===
/**
 The start/stop/reset logic of CashClock2's main screen: a three-state
 machine that drives the calculator, enables and disables the reset button,
 and, as an observer of the calculator, shows the elapsed time as hours,
 minutes and seconds.

 The screen is an immutable `View`. Button titles and colours, the money
 format, keyboard handling and animations are left out; the text fields'
 contents reach the model as the integers they parse to.
 */
module ClockViewController {
  import opened SwiftNumerics
  import ClockCalculator

  datatype State = Init | Started | Stopped

  /** The three numbers the time label shows as "hh:mm:ss". */
  datatype TimeDisplay = TimeDisplay(hours: int, minutes: int, seconds: int)

  /** What the time label and the money label show. */
  datatype Labels = Labels(time: TimeDisplay, money: real)

  datatype View = View(
    me: ClockCalculator.Observer,           // the controller's identity as a calculator observer
    calculator: ClockCalculator.Calculator,
    state: State,
    resetEnabled: bool,
    labels: Labels)

  /** The user's actions and the timer's firing, as the screen receives them. */
  datatype Event =
    | StartStopTapped(now: real)
    | ResetTapped
    | TimerFired(now: real)
    | StepperChanged(value: real)
    | BackgroundTapped(memberCount: int, costPerHour: int)

  /** The number of seconds a time display stands for. */
  function Seconds(t: TimeDisplay): int {
    t.hours * 3600 + t.minutes * 60 + t.seconds
  }

  /** A display in the usual form: minutes and seconds below 60, nothing negative. */
  predicate IsNormal(t: TimeDisplay) {
    0 <= t.hours && 0 <= t.minutes < 60 && 0 <= t.seconds < 60
  }

  /** `w` differs from `v` at most in its calculator. */
  predicate SameExceptCalculator(v: View, w: View) {
    && w.me == v.me && w.state == v.state && w.resetEnabled == v.resetEnabled
    && w.labels == v.labels
  }

  /////   Display   ////////////////////////////////////////////////////////////

  /**
   `updateElapsedTime`: whole seconds split with Swift's truncating `/` and
   `%` into hours, minutes and seconds. The split is exact for every input;
   a negative input gives parts that are all zero or negative.
   */
  function UpdateElapsedTime(time: int): (t: TimeDisplay)
    ensures Seconds(t) == time
    ensures 0 <= time ==> IsNormal(t)
    ensures time < 0 ==> t.hours <= 0 && -60 < t.minutes <= 0 && -60 < t.seconds <= 0
  {
    QuotMinutesHours(time);
    TimeDisplay(Quot(time, 3600), Rem(Quot(time, 60), 60), Rem(time, 60))
  }

  /** A non-negative number of seconds has exactly one normal display, the one `updateElapsedTime` shows. */
  lemma NormalDisplayUnique(time: int, t: TimeDisplay)
    requires 0 <= time
    ensures IsNormal(t) && Seconds(t) == time <==> t == UpdateElapsedTime(time)
  {
    if IsNormal(t) && Seconds(t) == time {
      var u := UpdateElapsedTime(time);
      var a, b := t.minutes * 60 + t.seconds, u.minutes * 60 + u.seconds;
      assert 0 <= a < 3600 && 0 <= b < 3600;
      assert 3600 * (t.hours - u.hours) == b - a;
      assert t.hours == u.hours;
      assert 60 * (t.minutes - u.minutes) == u.seconds - t.seconds;
    }
  }

  /** The labels for no time and no money: "00:00:00" and 0. */
  const ZERO_LABELS: Labels := Labels(TimeDisplay(0, 0, 0), 0.0)

  /** A non-negative time is shown normalised, as the whole seconds it contains. */
  lemma WholeSecondsShown(time: real)
    ensures var t := UpdateElapsedTime(TruncateToInt(time));
      0.0 <= time ==> IsNormal(t) && Seconds(t) as real <= time < Seconds(t) as real + 1.0
  {
    var n := TruncateToInt(time);
    assert Seconds(UpdateElapsedTime(n)) == n;
  }

  /**
   `update`, the observer callback: the time label shows the whole seconds
   of `time` and the money label shows `money`.
   */
  function Update(time: real, money: real): (l: Labels)
    ensures 0.0 <= time ==>
      && IsNormal(l.time)
      && Seconds(l.time) as real <= time < Seconds(l.time) as real + 1.0
    ensures l.money == money
  {
    WholeSecondsShown(time);
    Labels(UpdateElapsedTime(TruncateToInt(time)), money)
  }

  /** Some call in `ns` is addressed to `me`. */
  predicate AddressedTo(me: ClockCalculator.Observer, ns: seq<ClockCalculator.Notification>) {
    exists i :: 0 <= i < |ns| && ns[i].observer == me
  }

  /**
   The labels after the calls of one tick, applied in order: a call
   addressed to `me` replaces the labels, any other leaves them.
   */
  function Deliver(me: ClockCalculator.Observer, l: Labels, ns: seq<ClockCalculator.Notification>): (r: Labels)
    ensures (forall i :: 0 <= i < |ns| ==> ns[i].observer != me) ==> r == l
    decreases |ns|
  {
    if ns == [] then l
    else
      var before := Deliver(me, l, ns[..|ns| - 1]);
      var last := ns[|ns| - 1];
      if last.observer == me then Update(last.time, last.money) else before
  }

  /** When every call carries the same totals, the labels show them as soon as one call is addressed to `me`. */
  lemma {:induction false} DeliverSameTotals(me: ClockCalculator.Observer, l: Labels,
                                             ns: seq<ClockCalculator.Notification>, time: real, money: real)
    requires forall i :: 0 <= i < |ns| ==> ns[i].time == time && ns[i].money == money
    requires AddressedTo(me, ns)
    ensures Deliver(me, l, ns) == Update(time, money)
    decreases |ns|
  {
    var init := ns[..|ns| - 1];
    if ns[|ns| - 1].observer != me {
      var i :| 0 <= i < |ns| && ns[i].observer == me;
      assert init[i] == ns[i];
      DeliverSameTotals(me, l, init, time, money);
    }
  }

  /////   Settings   ///////////////////////////////////////////////////////////

  /** `updateNumberOfPersons`: sets the calculator's number of persons and nothing else. */
  function UpdateNumberOfPersons(v: View, n: int): (r: View)
    ensures r.calculator.numberOfPersons == n && r.calculator.costPerHour == v.calculator.costPerHour
    ensures ClockCalculator.SameExceptSettings(v.calculator, r.calculator)
    ensures SameExceptCalculator(v, r)
  {
    v.(calculator := v.calculator.(numberOfPersons := n))
  }

  /** `updateCostPerHour`: sets the calculator's cost per hour and nothing else. */
  function UpdateCostPerHour(v: View, n: int): (r: View)
    ensures r.calculator.costPerHour == n && r.calculator.numberOfPersons == v.calculator.numberOfPersons
    ensures ClockCalculator.SameExceptSettings(v.calculator, r.calculator)
    ensures SameExceptCalculator(v, r)
  {
    v.(calculator := v.calculator.(costPerHour := n))
  }

  /** `clickNumberOfPersonStepper`: the stepper's value, truncated to `Int`, becomes the number of persons. */
  function ClickNumberOfPersonStepper(v: View, value: real): (r: View)
    ensures 0.0 <= value ==>
      && 0 <= r.calculator.numberOfPersons
      && r.calculator.numberOfPersons as real <= value < r.calculator.numberOfPersons as real + 1.0
    ensures value < 0.0 ==>
      && r.calculator.numberOfPersons <= 0
      && r.calculator.numberOfPersons as real - 1.0 < value <= r.calculator.numberOfPersons as real
    ensures r.calculator.costPerHour == v.calculator.costPerHour
    ensures ClockCalculator.SameExceptSettings(v.calculator, r.calculator)
    ensures SameExceptCalculator(v, r)
  {
    UpdateNumberOfPersons(v, TruncateToInt(value))
  }

  /** `touchesBegan`: both text fields end editing; the member count is taken over, then the cost per hour. */
  function TouchesBegan(v: View, memberCount: int, costPerHour: int): (r: View)
    ensures r.calculator.numberOfPersons == memberCount && r.calculator.costPerHour == costPerHour
    ensures ClockCalculator.SameExceptSettings(v.calculator, r.calculator)
    ensures SameExceptCalculator(v, r)
  {
    UpdateCostPerHour(UpdateNumberOfPersons(v, memberCount), costPerHour)
  }

  /////   Start, stop, reset   /////////////////////////////////////////////////

  /** `showStopButton`: the clock is running, so reset is disabled. */
  function ShowStopButton(v: View): (r: View)
    ensures r.state == Started && !r.resetEnabled
    ensures r.me == v.me && r.calculator == v.calculator
    ensures r.labels == v.labels
  {
    v.(state := Started, resetEnabled := false)
  }

  /**
   `clickStartStop`: Init starts the calculator afresh, Started stops it with
   a final tick and enables reset, Stopped continues it without touching the
   counters; Init and Stopped both lead to Started with reset disabled.
   */
  function ClickStartStop(v: View, now: real): (r: ClockCalculator.Result<View>)
    ensures v.state == Init ==>
      && r.Ok?
      && r.value.state == Started && !r.value.resetEnabled
      && r.value.calculator.elapsedTime == 0.0 && r.value.calculator.totalCost == 0.0
      && r.value.calculator.startTime == now && r.value.calculator.currentTime == now
      && r.value.calculator.timerScheduled && r.value.labels == v.labels
    ensures v.state == Started ==>
      && (r.Ok? <==> ClockCalculator.StopTimer(v.calculator, now).Ok?)
      && (r.Ok? ==>
            && r.value.state == Stopped && r.value.resetEnabled
            && r.value.calculator == ClockCalculator.StopTimer(v.calculator, now).value.calculator
            && r.value.labels == Deliver(v.me, v.labels, ClockCalculator.StopTimer(v.calculator, now).value.notifications)
            && !r.value.calculator.timerScheduled)
    ensures v.state == Stopped ==>
      && r.Ok?
      && r.value.state == Started && !r.value.resetEnabled
      && r.value.calculator.elapsedTime == v.calculator.elapsedTime
      && r.value.calculator.totalCost == v.calculator.totalCost
      && r.value.calculator.startTime == now && r.value.calculator.currentTime == now
      && r.value.calculator.timerScheduled && r.value.labels == v.labels
    ensures r.Ok? ==>
      && r.value.me == v.me
      && r.value.calculator.numberOfPersons == v.calculator.numberOfPersons
      && r.value.calculator.costPerHour == v.calculator.costPerHour
      && r.value.calculator.observers == v.calculator.observers
  {
    match v.state
    case Init =>
      ClockCalculator.Ok(ShowStopButton(v.(calculator := ClockCalculator.StartTimer(v.calculator, now))))
    case Started =>
      (match ClockCalculator.StopTimer(v.calculator, now)
       case Err(e) => ClockCalculator.Err(e)
       case Ok(t) =>
         var labels := Deliver(v.me, v.labels, t.notifications);
         ClockCalculator.Ok(v.(calculator := t.calculator, labels := labels, resetEnabled := true, state := Stopped)))
    case Stopped =>
      ClockCalculator.Ok(ShowStopButton(v.(calculator := ClockCalculator.ContinueTimer(v.calculator, now))))
  }

  /**
   The controller's `resetTimer`: zeroes the calculator and shows what
   `update(0.0, 0.0)` shows (see `ZeroLabelsAreUpdateOfZero`).
   */
  function ResetTimer(v: View): (r: View)
    ensures r.calculator.elapsedTime == 0.0 && r.calculator.totalCost == 0.0
    ensures ClockCalculator.SameExceptCounters(v.calculator, r.calculator)
    ensures r.labels == ZERO_LABELS
    ensures r.me == v.me && r.state == v.state && r.resetEnabled == v.resetEnabled
  {
    v.(calculator := ClockCalculator.ResetTimer(v.calculator), labels := ZERO_LABELS)
  }

  /**
   `clickReset`: from any state, back to Init with both counters and both
   labels at zero. It does not unschedule the timer and does not touch the
   reset button.
   */
  function ClickReset(v: View): (r: View)
    ensures r.state == Init
    ensures r.calculator.elapsedTime == 0.0 && r.calculator.totalCost == 0.0
    ensures r.labels == ZERO_LABELS
    ensures ClockCalculator.SameExceptCounters(v.calculator, r.calculator)
    ensures r.resetEnabled == v.resetEnabled && r.me == v.me
  {
    ResetTimer(v).(state := Init)
  }

  /** The labels a reset shows are what `update(0.0, 0.0)` shows. */
  lemma ZeroLabelsAreUpdateOfZero()
    ensures Update(0.0, 0.0) == ZERO_LABELS
  {
    var t := UpdateElapsedTime(0);
    assert Seconds(t) == 0 && IsNormal(t);
  }

  /** Resetting twice is resetting once. */
  lemma ClickResetIdempotent(v: View)
    ensures ClickReset(ClickReset(v)) == ClickReset(v)
  {
  }

  /** Stop then continue: the counters the stop flushed are exactly the ones the clock runs on with. */
  lemma StopThenContinueKeepsCounters(v: View, t1: real, t2: real)
    requires v.state == Started
    requires ClickStartStop(v, t1).Ok?
    ensures ClickStartStop(ClickStartStop(v, t1).value, t2).Ok?
    ensures ClickStartStop(ClickStartStop(v, t1).value, t2).value.calculator.elapsedTime
         == v.calculator.elapsedTime + (t1 - v.calculator.startTime)
    ensures ClickStartStop(ClickStartStop(v, t1).value, t2).value.calculator.totalCost
         == v.calculator.totalCost + ClockCalculator.CostOf(t1 - v.calculator.startTime, v.calculator)
  {
  }

  /** After a stop, a registered screen shows the final totals the stop flushed. */
  lemma StopShowsFinalTotals(v: View, now: real)
    requires v.state == Started && v.me in v.calculator.observers
    requires ClickStartStop(v, now).Ok?
    ensures var w := ClickStartStop(v, now).value;
      w.labels == Update(w.calculator.elapsedTime, w.calculator.totalCost)
  {
    var t := ClockCalculator.StopTimer(v.calculator, now).value;
    var i :| 0 <= i < |v.calculator.observers| && v.calculator.observers[i] == v.me;
    assert t.notifications[i].observer == v.me;
    DeliverSameTotals(v.me, v.labels, t.notifications, t.calculator.elapsedTime, t.calculator.totalCost);
  }

  /////   Life cycle   /////////////////////////////////////////////////////////

  /**
   `viewDidLoad`: loads the saved settings into the calculator, writes them
   back through the two setters and registers the screen as an observer. It
   fails exactly when loading does.
   */
  function ViewDidLoad(v: View, defaults: ClockCalculator.Defaults): (r: ClockCalculator.Result<View>)
    ensures r.Ok? <==> ClockCalculator.Load(v.calculator, defaults).Ok?
    ensures r.Err? ==> r.error == ClockCalculator.NotAKeyedArchive
    ensures r.Ok? ==>
      var loaded := ClockCalculator.Load(v.calculator, defaults).value;
      && r.value.calculator.numberOfPersons == loaded.numberOfPersons
      && r.value.calculator.costPerHour == loaded.costPerHour
    ensures r.Ok? ==>
      && |r.value.calculator.observers| == |v.calculator.observers| + 1
      && r.value.calculator.observers[..|v.calculator.observers|] == v.calculator.observers
      && r.value.calculator.observers[|v.calculator.observers|] == v.me
    ensures r.Ok? ==>
      && r.value.calculator.elapsedTime == v.calculator.elapsedTime
      && r.value.calculator.totalCost == v.calculator.totalCost
      && r.value.calculator.timerScheduled == v.calculator.timerScheduled
      && r.value.calculator.startTime == v.calculator.startTime
      && r.value.calculator.currentTime == v.calculator.currentTime
      && SameExceptCalculator(v, r.value)
  {
    match ClockCalculator.Load(v.calculator, defaults)
    case Err(e) => ClockCalculator.Err(e)
    case Ok(c) =>
      var w := v.(calculator := c);
      var w' := UpdateCostPerHour(UpdateNumberOfPersons(w, c.numberOfPersons), c.costPerHour);
      ClockCalculator.Ok(w'.(calculator := ClockCalculator.AddObserver(w'.calculator, v.me).0))
  }

  /**
   The screen as the app launches: a fresh calculator, state Init, both labels
   at zero, then `viewDidLoad`. `resetEnabled` is the reset button's initial
   setting, which the storyboard decides.
   */
  function Launch(me: ClockCalculator.Observer, resetEnabled: bool, defaults: ClockCalculator.Defaults)
    : (r: ClockCalculator.Result<View>)
    ensures r.Ok? <==> !(ClockCalculator.DEFAULTS_KEY in defaults && defaults[ClockCalculator.DEFAULTS_KEY].CorruptData?)
    ensures r.Ok? ==>
      && r.value.state == Init && !r.value.calculator.timerScheduled
      && r.value.calculator.elapsedTime == 0.0 && r.value.calculator.totalCost == 0.0
      && r.value.calculator.observers == [me]
      && r.value.labels == ZERO_LABELS && r.value.resetEnabled == resetEnabled && r.value.me == me
    ensures r.Ok? ==>
      var loaded := ClockCalculator.Load(ClockCalculator.New(), defaults).value;
      && r.value.calculator.numberOfPersons == loaded.numberOfPersons
      && r.value.calculator.costPerHour == loaded.costPerHour
    ensures ClockCalculator.DEFAULTS_KEY !in defaults ==>
      && r.Ok?
      && r.value.calculator.numberOfPersons == ClockCalculator.DEFAULT_NUMBER_OF_PERSONS
      && r.value.calculator.costPerHour == ClockCalculator.DEFAULT_COST_PER_HOUR
  {
    ViewDidLoad(View(me, ClockCalculator.New(), Init, resetEnabled, ZERO_LABELS), defaults)
  }

  /** `applicationWillTerminate`: saves the calculator's settings. */
  function ApplicationWillTerminate(v: View, defaults: ClockCalculator.Defaults): (r: ClockCalculator.Result<ClockCalculator.Defaults>)
    ensures r.Ok? <==> IsInt32(v.calculator.costPerHour) && IsInt32(v.calculator.numberOfPersons)
    ensures r.Ok? ==> ClockCalculator.DEFAULTS_KEY in r.value
    ensures r.Ok? ==> forall k :: k in defaults && k != ClockCalculator.DEFAULTS_KEY ==> k in r.value && r.value[k] == defaults[k]
  {
    ClockCalculator.Save(v.calculator, defaults)
  }

  /** The settings saved when the app terminates are the ones the next launch starts with. */
  lemma RelaunchRestoresSettings(v: View, defaults: ClockCalculator.Defaults, me: ClockCalculator.Observer, resetEnabled: bool)
    requires ApplicationWillTerminate(v, defaults).Ok?
    ensures var r := Launch(me, resetEnabled, ApplicationWillTerminate(v, defaults).value);
      && r.Ok?
      && r.value.calculator.numberOfPersons == v.calculator.numberOfPersons
      && r.value.calculator.costPerHour == v.calculator.costPerHour
  {
    var saved := ApplicationWillTerminate(v, defaults).value;
    var initial := View(me, ClockCalculator.New(), Init, resetEnabled, ZERO_LABELS);
    ClockCalculator.SaveLoadRoundTrip(v.calculator, initial.calculator, defaults);
  }

  /////   Events   /////////////////////////////////////////////////////////////

  /**
   One event reaching the screen. A tap on the reset button is dropped while
   the button is disabled, and the timer fires only while it is scheduled.
   */
  function Handle(v: View, e: Event): (r: ClockCalculator.Result<View>)
    ensures e == ResetTapped && !v.resetEnabled ==> r == ClockCalculator.Ok(v)
    ensures e == ResetTapped && v.resetEnabled ==> r == ClockCalculator.Ok(ClickReset(v))
    ensures e.TimerFired? && !v.calculator.timerScheduled ==> r == ClockCalculator.Ok(v)
    ensures e.TimerFired? && v.calculator.timerScheduled ==>
      && (r.Ok? <==> ClockCalculator.UpdateTimeAndMoney(v.calculator, e.now).Ok?)
      && (r.Ok? ==>
            var t := ClockCalculator.UpdateTimeAndMoney(v.calculator, e.now).value;
            && r.value.calculator == t.calculator
            && r.value.labels == Deliver(v.me, v.labels, t.notifications)
            && r.value.state == v.state && r.value.resetEnabled == v.resetEnabled && r.value.me == v.me)
    ensures e.StartStopTapped? ==> r == ClickStartStop(v, e.now)
    ensures e.StepperChanged? ==> r == ClockCalculator.Ok(ClickNumberOfPersonStepper(v, e.value))
    ensures e.BackgroundTapped? ==> r == ClockCalculator.Ok(TouchesBegan(v, e.memberCount, e.costPerHour))
    ensures r.Ok? && !e.StartStopTapped? && !e.ResetTapped? ==> r.value.state == v.state
  {
    match e
    case StartStopTapped(now) => ClickStartStop(v, now)
    case ResetTapped => if v.resetEnabled then ClockCalculator.Ok(ClickReset(v)) else ClockCalculator.Ok(v)
    case TimerFired(now) =>
      if !v.calculator.timerScheduled then ClockCalculator.Ok(v)
      else
        (match ClockCalculator.UpdateTimeAndMoney(v.calculator, now)
         case Err(err) => ClockCalculator.Err(err)
         case Ok(t) => ClockCalculator.Ok(v.(calculator := t.calculator, labels := Deliver(v.me, v.labels, t.notifications))))
    case StepperChanged(value) => ClockCalculator.Ok(ClickNumberOfPersonStepper(v, value))
    case BackgroundTapped(memberCount, costPerHour) => ClockCalculator.Ok(TouchesBegan(v, memberCount, costPerHour))
  }

  /** The screen after the events `es`, in order; the first trap ends the run. */
  function Replay(v: View, es: seq<Event>): ClockCalculator.Result<View>
    decreases |es|
  {
    if es == [] then ClockCalculator.Ok(v)
    else
      match Handle(v, es[0])
      case Err(err) => ClockCalculator.Err(err)
      case Ok(w) => Replay(w, es[1..])
  }

  /**
   The state, the timer and the reset button agree: the timer is scheduled
   exactly in Started, reset is disabled in Started and enabled in Stopped.
   */
  predicate Consistent(v: View) {
    && (v.state == Started <==> v.calculator.timerScheduled)
    && (v.state == Started ==> !v.resetEnabled)
    && (v.state == Stopped ==> v.resetEnabled)
  }

  /** Every launched screen is consistent, whatever the storyboard's reset button. */
  lemma LaunchConsistent(me: ClockCalculator.Observer, resetEnabled: bool, defaults: ClockCalculator.Defaults)
    requires Launch(me, resetEnabled, defaults).Ok?
    ensures Consistent(Launch(me, resetEnabled, defaults).value)
  {
  }

  /** Every event keeps the screen consistent. */
  lemma HandleKeepsConsistent(v: View, e: Event)
    requires Consistent(v)
    requires Handle(v, e).Ok?
    ensures Consistent(Handle(v, e).value)
  {
  }

  /** Every screen reachable from a launch is consistent. */
  lemma {:induction false} ReplayKeepsConsistent(v: View, es: seq<Event>)
    requires Consistent(v)
    requires Replay(v, es).Ok?
    ensures Consistent(Replay(v, es).value)
    decreases |es|
  {
    if es != [] {
      HandleKeepsConsistent(v, es[0]);
      ReplayKeepsConsistent(Handle(v, es[0]).value, es[1..]);
    }
  }

  /**
   A timer tick on a registered screen shows the calculator's new totals: the
   whole elapsed seconds as hours, minutes and seconds, and the total cost.
   */
  lemma TimerFiredShowsTotals(v: View, now: real)
    requires v.calculator.timerScheduled && v.me in v.calculator.observers
    requires Handle(v, TimerFired(now)).Ok?
    ensures var w := Handle(v, TimerFired(now)).value;
      w.labels == Update(w.calculator.elapsedTime, w.calculator.totalCost)
  {
    var t := ClockCalculator.UpdateTimeAndMoney(v.calculator, now).value;
    var i :| 0 <= i < |v.calculator.observers| && v.calculator.observers[i] == v.me;
    assert t.notifications[i].observer == v.me;
    DeliverSameTotals(v.me, v.labels, t.notifications, t.calculator.elapsedTime, t.calculator.totalCost);
  }
}

=== FILE: swift_numerics.dfy ===
/**
 The parts of Swift's integer semantics that the clock relies on, written out
 over Dafny's unbounded `int` and exact `real`:
 - the value ranges of `Int32` and of the 64-bit `Int`, outside of which a
   Swift conversion or multiplication traps;
 - `/` and `%` on `Int`, which truncate toward zero (Dafny's are Euclidean);
 - `Int(x)` for a `Double` x, which truncates toward zero.
 */
module SwiftNumerics {

  const INT32_MIN: int := -0x8000_0000
  const INT32_MAX: int := 0x7FFF_FFFF
  const INT64_MIN: int := -0x8000_0000_0000_0000
  const INT64_MAX: int := 0x7FFF_FFFF_FFFF_FFFF

  /** `Int32(x)` succeeds exactly for these values. */
  predicate IsInt32(x: int) {
    INT32_MIN <= x <= INT32_MAX
  }

  /** A 64-bit `Int` operation succeeds exactly when its result is one of these. */
  predicate IsInt64(x: int) {
    INT64_MIN <= x <= INT64_MAX
  }

  /** Swift's `a / d` for a positive divisor: the quotient truncated toward zero. */
  function Quot(a: int, d: int): (q: int)
    requires d > 0
    ensures 0 <= a ==> 0 <= q && d * q <= a < d * q + d
    ensures a < 0 ==> q <= 0 && d * q - d < a <= d * q
  {
    if a >= 0 then a / d else -((-a) / d)
  }

  /** Swift's `a % d` for a positive divisor: the remainder takes the sign of `a`. */
  function Rem(a: int, d: int): (r: int)
    requires d > 0
    ensures a == d * Quot(a, d) + r
    ensures 0 <= a ==> 0 <= r < d
    ensures a < 0 ==> -d < r <= 0
  {
    if a >= 0 then a % d else -((-a) % d)
  }

  /** Swift's `Int(x)` for a `Double` x in range: drops the fraction, rounding toward zero. */
  function TruncateToInt(x: real): (n: int)
    ensures 0.0 <= x ==> 0 <= n && n as real <= x < n as real + 1.0
    ensures x < 0.0 ==> n <= 0 && n as real - 1.0 < x <= n as real
  {
    if x >= 0.0 then x.Floor else -((-x).Floor)
  }

  /** Truncating division by 60 twice is truncating division by 3600. */
  lemma {:induction false} QuotMinutesHours(a: int)
    ensures Quot(Quot(a, 60), 60) == Quot(a, 3600)
  {
    if a >= 0 {
      NonNegQuotMinutesHours(a);
    } else {
      NonNegQuotMinutesHours(-a);
    }
  }

  lemma NonNegQuotMinutesHours(a: nat)
    ensures (a / 60) / 60 == a / 3600
  {
    var q1, r1 := a / 60, a % 60;
    var q2, r2 := q1 / 60, q1 % 60;
    assert a == 3600 * q2 + (60 * r2 + r1);
    var h, s := a / 3600, a % 3600;
    assert 3600 * (q2 - h) == s - (60 * r2 + r1);
  }
}
